=== FILE: README.md ===
# k-means clustering and GHCN-Daily accumulation, modelled in Dafny

This project models the two computational pieces of a small collection of
numerical Python scripts and proves properties of them:

- `kmeans` (kmeans.py): Lloyd's algorithm. Seeding picks k data rows by
  index, with repeats allowed. Each round builds the n×k table of squared
  Euclidean distances. Each point takes the label of its nearest centroid,
  and ties go to the lowest index (numpy `argmin`). The loop stops at a
  fixed point, where the labels did not change. Otherwise each centroid
  moves to the mean of its points. At most `maxiter` rounds run.
- ghcn.py: the GHCN-Daily script. It builds a station → latitude table
  from `ghcnd-stations.txt`. It cuts the 31 day-value fields out of each
  `.dly` record line. It keeps the records of one element and one month
  from known stations, and treats unparseable fields and `-9999` as
  missing. It adds each day's present values into a northern or a
  southern sum/count pair.

Files:

- `wrappers.dfy`: module `Wrappers`, the `Option` type.
- `kmeans.dfy`: module `KMeans` (the algorithm) and module
  `KMeansProperties` (lemmas that relate its operations).
- `pytext.dfy`: module `PyText`. It covers Python slicing, which clamps
  out-of-range bounds, and `float()` on decimal text. A `ValueError` is
  modelled as `None`. The module also holds the integer formatter that
  `float()` inverts.
- `ghcn.dfy`: module `Ghcn`, the script itself.

Modelling choices:

- Coordinates, latitudes and day values are exact `real`s, not IEEE
  doubles.
- The random seed indices of `kmeans` (`np.random.choice`, kmeans.py:31)
  are a parameter `ix`, with k = |ix|.
- The label buffer `g` starts out uninitialised in the source
  (kmeans.py:38-39). Here it is `Option<seq<nat>>` and starts as `None`,
  so the first round can never look like a fixed point.
- The loop is the recursive function `Rounds`, with the rounds still
  allowed as its fuel. Its result records how many rounds ran and whether
  the loop left through the `break`.
- The source divides by zero when a cluster is empty (kmeans.py:56) and
  gets NaN. This model instead keeps that cluster's previous centroid.
- Day values stay in tenths of a degree. A line is the string Python's
  line iteration yields, trailing newline included. A file is a sequence
  of lines, and the directory is a sequence of files.
- The station-file loop (ghcn.py:31) has no `try`, so one bad latitude
  aborts the script with `ValueError`. Here `Run` returns `None` in that
  case.

Two facts about the code that the model keeps:

- `kmeans` does not check `k <= n` or `p >= 1`, and nothing here requires
  them.
- numpy's `argmin` on a NaN distance picks that cluster. The model never
  produces NaN, so this case does not arise here.

## Model

| member | source | states |
|---|---|---|
| KMeans.Seed | kmeans.py:28-32 | one initial centroid per seed index: centroid j is the data row at index ix[j], in seed order; indices may repeat |
| KMeans.Square | kmeans.py:45 | a squared coordinate difference is never negative and is zero only for equal coordinates |
| KMeans.SqDist | kmeans.py:44-45 | squared Euclidean distance is never negative and is zero exactly when point and centroid coincide |
| KMeans.DistanceTable | kmeans.py:44-45 | the distance table has n rows of k entries, entry (i, j) being the squared distance from point i to centroid j |
| KMeans.Argmin | kmeans.py:47-48 | `argmin` returns a position holding the row's minimum with no earlier position holding it |
| KMeans.Assign | kmeans.py:43-48 | one label per point, each in [0, k), naming a centroid at minimum squared distance with every lower index strictly farther |
| KMeans.DeviationIsSumMinusCount | kmeans.py:56 | a cluster's summed deviations from c are its coordinate sum less (cluster size) × c |
| KMeans.ClusterMean | kmeans.py:56 | the mean of a non-empty cluster is a point from which its members' deviations sum to zero in every coordinate |
| KMeans.MeanIsUnique | kmeans.py:56 | a cluster has exactly one mean: two points with vanishing deviation sums are equal |
| KMeans.UpdateCentroids | kmeans.py:54-56 | keeps k centroids of dimension p; each non-empty cluster's centroid becomes its mean, and an empty cluster's centroid is left as it was |
| KMeans.Step | kmeans.py:43-56 | one round of Lloyd's iteration, assignment then update, keeps k centroids of dimension p |
| KMeans.Iterate | kmeans.py:41-56 | any number of rounds of Lloyd's iteration keeps k centroids of dimension p |
| KMeans.Rounds | kmeans.py:41-56 | labels in range, centroid shape kept, 1 to `remaining` rounds run, all of them unless it converged; on convergence, assigning against the returned centroids gives back the returned labels; without convergence, the labels are the assignment against some k centroids c and the returned centroids are the update of c from those labels; if the incoming centroids fit the incoming labels, the outgoing ones fit the outgoing labels |
| KMeans.Kmeans | kmeans.py:8-58 | n labels each in [0, k); k centroids of dimension p; at most `maxiter` rounds, exactly `maxiter` without convergence; a fixed point on a converged exit; on the other exit, labels that are an assignment step's result and centroids that are the update from them; every non-empty returned cluster's centroid is the mean of its points; the labels and centroids are those of Lloyd's iteration started from the seed rows `da[ix, :]` and run for the number of rounds reported |
| KMeans.RoundsFollowLloyd | kmeans.py:41-56 | a loop that ran r rounds from centroids c returns the labels assigned against c after r − 1 rounds of Lloyd's iteration; its centroids are those same centroids when it stopped at a fixed point and one more round further on otherwise |
| KMeansProperties.ArgminIsUnique | kmeans.py:47-48 | `Argmin` is the one and only first-minimum position |
| KMeansProperties.AssignIsTheNearestRule | kmeans.py:44-48 | a labelling obeys the nearest-centroid, lowest-index rule at every point if and only if it is the assignment step's result |
| KMeansProperties.SeedRowsSitOnTheirCentroids | kmeans.py:31-48 | before any update, each seed row is at distance 0 from its assigned centroid, which equals it; its label is at most the seed's position and no earlier centroid equals it |
| KMeansProperties.UpdateIsPerCluster | kmeans.py:55-56 | the new centroid of cluster j depends only on which points are labelled j and on j's previous centroid, not on the other clusters |
| KMeansProperties.SameMembersSameCount | kmeans.py:56 | two labellings that agree on membership of j give cluster j the same size |
| KMeansProperties.SameMembersSameSum | kmeans.py:56 | two labellings that agree on membership of j give cluster j the same coordinate sums |
| KMeansProperties.IterateTakesLastStep | kmeans.py:41-56 | n rounds of Lloyd's iteration are n − 1 rounds followed by one more |
| KMeansProperties.UnconvergedHoldsIterate | kmeans.py:41-56 | a loop that ran r rounds from c without reaching a fixed point holds the centroids after exactly r rounds of Lloyd's iteration from c |
| KMeansProperties.UnconvergedRunsAllRounds | kmeans.py:31-58 | when `kmeans` does not converge, it returns the centroids after exactly `maxiter` rounds of Lloyd's iteration from the seed rows |
| KMeansProperties.ConvergedIsStable | kmeans.py:49-51 | resuming the loop from a converged result stops in its first round and returns the same labels and centroids |
| KMeansProperties.ConvergedLabelsAndCentroidsAgree | kmeans.py:41-58 | after convergence the labels are the assignment of the centroids and the centroids are what an update from the labels gives |
| PyText.Slice | ghcn.py:85 | `s[lo:hi]` has length min(hi, len(s)) − lo when that is positive, else 0, and holds the characters of s from position lo on |
| PyText.LeadingDigits | ghcn.py:54 | the length of the longest all-digit prefix |
| PyText.TrimLeft | ghcn.py:54 | removes exactly the leading white space: a suffix that starts with a non-space, everything before it being space |
| PyText.TrimRight | ghcn.py:54 | removes exactly the trailing white space: a prefix that ends with a non-space, everything after it being space |
| PyText.PointIndex | ghcn.py:54 | the position of the first point of the text, or its length when it has none |
| PyText.ParseUnsigned | ghcn.py:54 | accepts exactly the text whose parts before and after the first point are all digits, with at least one digit in all; the result is the whole part plus the fraction part divided by 10 to the number of fraction digits, and it is never negative |
| PyText.ParseSigned | ghcn.py:54 | accepts exactly an unsigned literal with an optional leading `+` or `-`; an accepted literal contains a digit; a negative result needs a leading `-`, and a leading `-` never gives a positive result |
| PyText.ParseFloat | ghcn.py:52-56 | accepts exactly the text whose stripped form is a signed literal, and such text contains a digit; anything else yields `None` instead of raising |
| PyText.UnsignedLiteralValue | ghcn.py:54 | digits w, optionally a point and digits f, denote w + f / 10^len(f) |
| PyText.SignedLiteralValue | ghcn.py:54 | `-` in front of an unsigned literal negates its value, and `+` or no sign keeps it |
| PyText.DecimalTextValue | ghcn.py:52-56 | padded decimal text such as a latitude ` -33.9500` reads as the signed number it denotes, whatever run of the white space `float()` skips surrounds it (blanks, tab to carriage return, such as the newline at the end of a short line) |
| PyText.UnsignedLiteralEnds | ghcn.py:54 | an unsigned literal contains a digit and starts and ends with a digit or the point |
| PyText.ParseFormattedInt | ghcn.py:52-56 | `float()` reads back every integer as `str()` writes it, with any blank padding on either side |
| PyText.NoDigitIsNoNumber | ghcn.py:52-56 | text without digits, such as a blank field or one cut short by a short line, is a `ValueError` |
| PyText.DigitsOfFormatNat | ghcn.py:54 | the digits written for n denote n |
| PyText.StripPadding | ghcn.py:54 | stripping removes exactly the blank padding around a token that starts and ends with a non-space |
| Ghcn.SpansFrom | ghcn.py:38-43 | the `colspecs` loop yields `count` spans, span d being [ii + 8d, ii + 8d + 5) |
| Ghcn.Colspecs | ghcn.py:38-43 | 31 spans, span d = [21 + 8d, 26 + 8d), each 5 wide, each ending before the next begins, the first starting at 21 and the last ending at 266 |
| Ghcn.ColspecsDisjoint | ghcn.py:38-43 | no column lies in two value fields |
| Ghcn.StationId | ghcn.py:30 | `line[0:11]` is the first 11 characters of the line, or all of a shorter line |
| Ghcn.LatitudeField | ghcn.py:31 | `line[11:20]` holds the line's characters from column 11 up to column 20 or the end of the line, and is empty for a line of 11 characters or fewer |
| Ghcn.MonthField | ghcn.py:80 | `line[15:17]` holds the line's characters from column 15 up to column 17 or the end of the line |
| Ghcn.ElementField | ghcn.py:70 | `line[17:21]` holds the line's characters from column 17 up to column 21 or the end of the line |
| Ghcn.Latitude | ghcn.py:31 | `float(line[11:20])` succeeds exactly when the stripped field is a signed decimal literal, which then contains a digit |
| Ghcn.LatitudeReadsField | ghcn.py:31 | a latitude field holding padded decimal text such as ` -33.9500` gives the number it denotes |
| Ghcn.TableOfDefined | ghcn.py:29-32 | the table loop finishes exactly when every entry has a latitude |
| Ghcn.TableOfKeys | ghcn.py:29-32 | the table's keys are exactly the ids of the entries |
| Ghcn.TableOfLastWins | ghcn.py:29-32 | an id's value is the latitude of its last entry |
| Ghcn.TableOf | ghcn.py:29-32 | the `lat[idx] = x` loop over entries; its contract is stated by TableOfDefined (it finishes exactly when every entry has a latitude), TableOfKeys (its keys are exactly the entries' ids) and TableOfLastWins (an id maps to the latitude of its last entry) |
| Ghcn.StationTable | ghcn.py:27-32 | the `lat` dictionary built from the station file; its contract is stated by StationTableDomain and StationTableLastLineWins below |
| Ghcn.StationTableDomain | ghcn.py:27-32 | the station table exists exactly when every `line[11:20]` parses; its keys are then exactly the `line[0:11]` ids of the file |
| Ghcn.StationTableLastLineWins | ghcn.py:29-32 | a station's latitude is the one parsed from the last line with its id; earlier lines are overwritten |
| Ghcn.DayValue | ghcn.py:85-91 | a day is present exactly when its field parses and is not -9999, and then it has the parsed value |
| Ghcn.DayValueReadsField | ghcn.py:85-91 | a right-justified integer field gives that integer, and `-9999` gives "missing" |
| Ghcn.BlankDayIsMissing | ghcn.py:85-91 | a field with no digit, blank or past the end of a short line, is missing, not an error |
| Ghcn.SelectRecord | ghcn.py:68-96 | a line is used if and only if `[17:21]` equals the element, `[0:11]` is a known station and `[15:17]` equals the month; a used line carries its station's latitude and exactly 31 day values |
| Ghcn.AddDays | ghcn.py:98-104 | on a day with a value the count goes up by exactly 1 and the sum by that value; other days are unchanged |
| Ghcn.AddRecord | ghcn.py:99-104 | exactly one accumulator changes: the northern one when latitude > 0, otherwise (latitude 0 included) the southern one |
| Ghcn.ZeroAccumulator | ghcn.py:58-61 | the starting totals: 31 days, every sum 0 and every count 0 |
| Ghcn.AddLine | ghcn.py:68-104 | a line that is not selected leaves both totals unchanged, and a selected line is added as its record |
| Ghcn.AddLines | ghcn.py:68-104 | the `for line in gid` loop keeps both totals at 31 days, and a file none of whose lines is selected leaves them unchanged; AddLinesTotals gives the counts and sums it reaches |
| Ghcn.AddFiles | ghcn.py:63-104 | the `for fname in files` loop gives the same totals as reading all the files' lines in one sequence, so file boundaries do not matter; RunTotals gives the resulting counts and sums |
| Ghcn.AddLinesTotals | ghcn.py:68-104 | after a run of lines, each hemisphere's count for day d has grown by the number of selected records from it with a value that day, and its sum by the total of those values |
| Ghcn.AddLinesAppend | ghcn.py:68 | processing a + b is processing a, then b |
| Ghcn.Run | ghcn.py:25-104 | the script reaches its totals exactly when every station latitude parses, and both totals then hold 31 days |
| Ghcn.Script | ghcn.py:25-104 | the script with element `TMAX` and month `01`: its totals exist exactly when every station latitude parses, that is when the station table exists, and then hold 31 days; that every line it selects is a `TMAX` record for month `01` from a known station is SelectRecord's contract applied to those two constants |
| Ghcn.ScriptTotals | ghcn.py:45-104 | each of the script's final per-day counts and sums is the count and total of the present values of that hemisphere's January `TMAX` records, over all lines of all files |
| Ghcn.RunTotals | ghcn.py:58-104 | each final per-day count and sum is the count and total of the present values of that hemisphere's selected records, over all lines of all files |

## Left out

- The random draw of seed indices (kmeans.py:31): the indices are a parameter.
- `test_kmeans` (kmeans.py:61-86), the synthetic data and the concordance statistic: random sampling with nothing to verify.
- KMeans.UpdateCentroids: the source averages an empty cluster to NaN (kmeans.py:56); the model keeps the previous centroid instead.
- KMeans.Kmeans: requires `maxiter >= 1` because with 0 rounds the source returns an uninitialised label buffer. It requires k >= 1 because with no centroids `argmin` raises (kmeans.py:48). It requires seed indices in [0, n) because that is what the draw `np.random.choice(np.arange(n), k)` (kmeans.py:31) always yields.
- Floating-point rounding, NaN propagation and numpy broadcasting: all arithmetic is on exact reals.
- The decrease of the within-cluster sum of squares from round to round: the source neither computes nor relies on it.
- PyText.ParseFloat: accepts decimal text only: white space, an optional sign, digits and at most one point. Python's `float()` also accepts exponents (`1e1`), `inf`, `nan`, digit underscores, non-ASCII decimal digits and non-ASCII white space (U+0085, U+00A0 and others); here all of these give `None`. White space here is what `float()` skips in ASCII text: blank and the controls 0x09-0x0D; the separators 0x1C-0x1F are not white space for `float()` in ASCII text, so padding made of them gives `None` in both. Text that holds a non-ASCII character is first rewritten by `float()` so that every Unicode white-space character, 0x1C-0x1F included, becomes a blank; that rewriting is not modelled. For a day field (ghcn.py:89), `inf` and `nan` end up missing in both, but a field such as `1e1` is a value in Python and missing here. For a latitude (ghcn.py:31), Python stores such a value and goes on, while here `Latitude` is `None` and `Run` returns `None`.
- KMeans.UpdateCentroids: integer-typed data is not covered. `cent = da[ix, :]` keeps the dtype of `da` (kmeans.py:32), so for integer data the source truncates each mean toward zero when it stores it (kmeans.py:56). The model assumes real-valued data and keeps exact means.
- Opening and listing files (ghcn.py:26-35, 63-66), `gzip` decoding and the hard-coded paths: the station file and each `.dly` file arrive as sequences of lines.
- The conversion to degrees by `/ 10` (ghcn.py:94) and the final division of sums by counts (ghcn.py:107-108): sums stay in tenths, and the possible division by a zero count is not modelled.
- truncation_cor.py and power_cor.py: floating-point Monte-Carlo simulations with no discrete behaviour.

=== FILE: ghcn.dfy ===
/** The GHCN-Daily script (ghcn.py): build a station → latitude table from
    `ghcnd-stations.txt`, then, over the lines of every `.dly` file, keep the
    records of one element and one month from known stations and add each
    day's present values into a northern or a southern running total.

    A line is the text Python's line iteration yields (trailing newline
    included); a file is its sequence of lines. Day values stay in the
    file's unit, tenths of a degree. */
module Ghcn {
  import opened Wrappers
  import opened PyText

  /** Day-value fields per record line: one per possible day of a month. */
  const DaysPerRecord: nat := 31
  /** Column where the first day's value starts. */
  const FirstValueColumn: nat := 21
  /** Width of a value field. */
  const ValueWidth: nat := 5
  /** Distance between consecutive value fields: the value and its three
      flag characters. */
  const DayStride: nat := 8
  /** The value the format uses for "no observation". */
  const MissingValue: real := -9999.0

  /** The element and month the script extracts (see `Script`). */
  const TargetElement: string := "TMAX"
  const TargetMonth: string := "01"

  /* ---------------------------------------------------------------------
     Fixed-width fields
     --------------------------------------------------------------------- */

  /** `line[0:11]`, the station id: the first 11 characters, or the whole
      line when it is shorter. */
  function StationId(line: string): (id: string)
    ensures |id| == Min(11, |line|)
    ensures forall k :: 0 <= k < |id| ==> id[k] == line[k]
  {
    Slice(line, 0, 11)
  }

  /** `line[11:20]`, the latitude columns of a station line: the characters
      from column 11 up to column 20 or the end of the line. */
  function LatitudeField(line: string): (f: string)
    ensures |f| == if |line| > 11 then Min(20, |line|) - 11 else 0
    ensures forall k :: 0 <= k < |f| ==> f[k] == line[11 + k]
  {
    Slice(line, 11, 20)
  }

  /** `line[15:17]`, the month of a record line. */
  function MonthField(line: string): (f: string)
    ensures |f| == if |line| > 15 then Min(17, |line|) - 15 else 0
    ensures forall k :: 0 <= k < |f| ==> f[k] == line[15 + k]
  {
    Slice(line, 15, 17)
  }

  /** `line[17:21]`, the element code of a record line. */
  function ElementField(line: string): (f: string)
    ensures |f| == if |line| > 17 then Min(21, |line|) - 17 else 0
    ensures forall k :: 0 <= k < |f| ==> f[k] == line[17 + k]
  {
    Slice(line, 17, 21)
  }

  /** A half-open column range `[start, stop)`, a pair of `colspecs`. */
  datatype Span = Span(start: nat, stop: nat)

  /** The `colspecs` loop: `count` spans of width 5, the first starting at
      column `ii`, each next one 8 columns further on. */
  function SpansFrom(ii: nat, count: nat): (specs: seq<Span>)
    ensures |specs| == count
    ensures forall d :: 0 <= d < count ==>
              specs[d] == Span(ii + DayStride * d, ii + DayStride * d + ValueWidth)
    decreases count
  {
    if count == 0 then []
    else [Span(ii, ii + ValueWidth)] + SpansFrom(ii + DayStride, count - 1)
  }

  /** The 31 value-field spans of a record line. */
  function Colspecs(): (specs: seq<Span>)
    ensures |specs| == DaysPerRecord
    ensures forall d :: 0 <= d < |specs| ==> specs[d].stop - specs[d].start == ValueWidth
    ensures forall d :: 0 <= d < |specs| - 1 ==> specs[d].stop < specs[d + 1].start
    ensures forall d :: 0 <= d < |specs| ==> specs[d] == Span(21 + 8 * d, 26 + 8 * d)
    ensures specs[0].start == 21 && specs[|specs| - 1].stop == 266
  {
    SpansFrom(FirstValueColumn, DaysPerRecord)
  }

  predicate InSpan(s: Span, col: nat) {
    s.start <= col < s.stop
  }

  /** No column belongs to two value fields. */
  lemma ColspecsDisjoint()
    ensures forall d, e, col ::
              0 <= d < DaysPerRecord && 0 <= e < DaysPerRecord && d != e && InSpan(Colspecs()[d], col)
              ==> !InSpan(Colspecs()[e], col)
  {
  }

  /* ---------------------------------------------------------------------
     Station table
     --------------------------------------------------------------------- */

  /** `float(line[11:20])`, the station's latitude; `None` is the
      `ValueError` that aborts the script. */
  function Latitude(line: string): (r: Option<real>)
    ensures r.Some? <==> IsSignedLiteral(Strip(LatitudeField(line)))
    ensures r.Some? ==> HasDigit(LatitudeField(line))
  {
    ParseFloat(LatitudeField(line))
  }

  /** A station line whose columns 11 to 19 hold decimal text, padded with
      white space, has that number as its latitude. */
  lemma LatitudeReadsField(line: string, left: string, sign: string, w: string, point: bool, f: string, right: string)
    requires LatitudeField(line) == left + sign + Literal(w, point, f) + right
    requires AllSpace(left) && AllSpace(right)
    requires sign == "" || sign == "+" || sign == "-"
    requires AllDigits(w) && AllDigits(f)
    requires if point then |w| + |f| > 0 else |w| > 0 && f == ""
    ensures Latitude(line) == Some(if sign == "-" then -DecimalValue(w, f) else DecimalValue(w, f))
  {
    DecimalTextValue(left, sign, w, point, f, right);
  }

  /** A line of the station file as the table loop sees it: its id and its
      latitude, if that parses. */
  datatype StationEntry = StationEntry(id: string, latitude: Option<real>)

  function Entries(lines: seq<string>): (es: seq<StationEntry>)
    ensures |es| == |lines|
    ensures forall i :: 0 <= i < |lines| ==> es[i] == StationEntry(StationId(lines[i]), Latitude(lines[i]))
  {
    seq(|lines|, i requires 0 <= i < |lines| => StationEntry(StationId(lines[i]), Latitude(lines[i])))
  }

  /** The loop `for line in fid: lat[line[0:11]] = float(line[11:20])` over
      entries: later entries overwrite earlier ones with the same id, and an
      entry without a latitude ends it with `None`. */
  function TableOf(es: seq<StationEntry>): (r: Option<map<string, real>>)
    decreases |es|
  {
    if |es| == 0 then Some(map[])
    else
      var front := TableOf(es[..|es| - 1]);
      var last := es[|es| - 1];
      if front.None? || last.latitude.None? then None
      else Some(front.value[last.id := last.latitude.value])
  }

  /** The `lat` dictionary built from the lines of `ghcnd-stations.txt`. */
  function StationTable(lines: seq<string>): Option<map<string, real>> {
    TableOf(Entries(lines))
  }

  lemma {:induction false} TableOfDefined(es: seq<StationEntry>)
    ensures TableOf(es).Some? <==> forall i :: 0 <= i < |es| ==> es[i].latitude.Some?
    decreases |es|
  {
    if |es| > 0 {
      TableOfDefined(es[..|es| - 1]);
    }
  }

  lemma {:induction false} TableOfKeys(es: seq<StationEntry>)
    requires TableOf(es).Some?
    ensures forall id :: id in TableOf(es).value <==> exists i :: 0 <= i < |es| && es[i].id == id
    decreases |es|
  {
    if |es| > 0 {
      var front := es[..|es| - 1];
      TableOfKeys(front);
      forall id | id in TableOf(es).value
        ensures exists i :: 0 <= i < |es| && es[i].id == id
      {
        if id != es[|es| - 1].id {
          var i :| 0 <= i < |front| && front[i].id == id;
          assert es[i].id == id;
        }
      }
      forall id | exists i :: 0 <= i < |es| && es[i].id == id
        ensures id in TableOf(es).value
      {
        var i :| 0 <= i < |es| && es[i].id == id;
        if i < |front| {
          assert front[i].id == id;
        }
      }
    }
  }

  lemma {:induction false} TableOfLastWins(es: seq<StationEntry>, i: nat)
    requires TableOf(es).Some?
    requires i < |es|
    requires forall j :: i < j < |es| ==> es[j].id != es[i].id
    ensures es[i].latitude.Some? && es[i].id in TableOf(es).value
    ensures TableOf(es).value[es[i].id] == es[i].latitude.value
    decreases |es|
  {
    TableOfDefined(es);
    if i < |es| - 1 {
      var front := es[..|es| - 1];
      TableOfDefined(front);
      TableOfLastWins(front, i);
    }
  }

  /** The table exists exactly when every latitude in the station file
      parses; its keys are then exactly the ids the file lists. */
  lemma StationTableDomain(lines: seq<string>)
    ensures StationTable(lines).Some? <==> forall i :: 0 <= i < |lines| ==> Latitude(lines[i]).Some?
    ensures StationTable(lines).Some? ==>
              forall i :: 0 <= i < |lines| ==> StationId(lines[i]) in StationTable(lines).value
    ensures StationTable(lines).Some? ==>
              forall id :: id in StationTable(lines).value ==> exists i :: 0 <= i < |lines| && StationId(lines[i]) == id
  {
    var es := Entries(lines);
    TableOfDefined(es);
    if TableOf(es).Some? {
      TableOfKeys(es);
      forall i | 0 <= i < |lines|
        ensures StationId(lines[i]) in TableOf(es).value
      {
        assert es[i].id == StationId(lines[i]);
      }
      forall id | id in TableOf(es).value
        ensures exists i :: 0 <= i < |lines| && StationId(lines[i]) == id
      {
        var i :| 0 <= i < |es| && es[i].id == id;
        assert StationId(lines[i]) == id;
      }
    }
  }

  /** The latitude recorded for a station is the one on the last line
      bearing its id. */
  lemma StationTableLastLineWins(lines: seq<string>, i: nat)
    requires StationTable(lines).Some?
    requires i < |lines|
    requires forall j :: i < j < |lines| ==> StationId(lines[j]) != StationId(lines[i])
    ensures Latitude(lines[i]).Some?
    ensures StationId(lines[i]) in StationTable(lines).value
    ensures StationTable(lines).value[StationId(lines[i])] == Latitude(lines[i]).value
  {
    var es := Entries(lines);
    assert es[i] == StationEntry(StationId(lines[i]), Latitude(lines[i]));
    forall j | i < j < |es|
      ensures es[j].id != es[i].id
    {
      assert es[j].id == StationId(lines[j]);
    }
    TableOfLastWins(es, i);
  }

  /* ---------------------------------------------------------------------
     Record selection and field extraction
     --------------------------------------------------------------------- */

  /** `my_float` followed by the `-9999` replacement: the value of day `d`
      (0-based), or `None` when the field does not parse or holds the
      missing-value code. */
  function DayValue(line: string, d: nat): (v: Option<real>)
    requires d < DaysPerRecord
    ensures v.Some? <==> ParseFloat(Slice(line, Colspecs()[d].start, Colspecs()[d].stop)).Some?
                         && ParseFloat(Slice(line, Colspecs()[d].start, Colspecs()[d].stop)).value != MissingValue
    ensures v.Some? ==> v == ParseFloat(Slice(line, Colspecs()[d].start, Colspecs()[d].stop))
  {
    var span := Colspecs()[d];
    match ParseFloat(Slice(line, span.start, span.stop))
    case None => None
    case Some(x) => if x == MissingValue then None else Some(x)
  }

  /** A selected record: its station's latitude and its 31 day values. */
  datatype DayRecord = DayRecord(latitude: real, values: seq<Option<real>>)

  /** The filter and extraction for one line of a `.dly` file: `Some` exactly
      when the element field is `element`, the station id is in the table
      and the month field is `month`. */
  function SelectRecord(lat: map<string, real>, element: string, month: string, line: string): (r: Option<DayRecord>)
    ensures r.Some? <==> ElementField(line) == element && StationId(line) in lat && MonthField(line) == month
    ensures r.Some? ==> r.value.latitude == lat[StationId(line)]
    ensures r.Some? ==> |r.value.values| == DaysPerRecord
    ensures r.Some? ==> forall d :: 0 <= d < DaysPerRecord ==> r.value.values[d] == DayValue(line, d)
  {
    if ElementField(line) != element then None
    else if StationId(line) !in lat then None
    else if MonthField(line) != month then None
    else Some(DayRecord(lat[StationId(line)], seq(DaysPerRecord, d requires 0 <= d < DaysPerRecord => DayValue(line, d))))
  }

  /** A field holding a right-justified integer other than -9999 yields that
      integer; `-9999` and a field without digits (blank, or cut off by a
      short line) yield "missing". */
  lemma DayValueReadsField(line: string, d: nat, n: int, pad: nat)
    requires d < DaysPerRecord
    requires Slice(line, Colspecs()[d].start, Colspecs()[d].stop) == Spaces(pad) + FormatInt(n)
    ensures DayValue(line, d) == if n == -9999 then None else Some(n as real)
  {
    var field := Slice(line, Colspecs()[d].start, Colspecs()[d].stop);
    assert field == Spaces(pad) + FormatInt(n) + Spaces(0);
    ParseFormattedInt(n, pad, 0);
    assert ParseFloat(field) == Some(n as real);
    assert n as real == MissingValue <==> n == -9999;
  }

  lemma BlankDayIsMissing(line: string, d: nat)
    requires d < DaysPerRecord
    requires forall k :: Colspecs()[d].start <= k < Colspecs()[d].stop && k < |line| ==> !IsDigit(line[k])
    ensures DayValue(line, d) == None
  {
  }

  /* ---------------------------------------------------------------------
     Hemisphere accumulation
     --------------------------------------------------------------------- */

  /** Per-day running sums and counts of present values (`north`/`north_n`
      or `south`/`south_n`). */
  datatype Accumulator = Accumulator(sums: seq<real>, counts: seq<nat>)

  predicate WellSized(a: Accumulator) {
    |a.sums| == DaysPerRecord && |a.counts| == DaysPerRecord
  }

  /** The two totals the script keeps. */
  datatype Totals = Totals(north: Accumulator, south: Accumulator)

  predicate WellSizedTotals(t: Totals) {
    WellSized(t.north) && WellSized(t.south)
  }

  /** The totals before any record: `np.zeros(31)` and zero counts. */
  function ZeroAccumulator(): (a: Accumulator)
    ensures WellSized(a)
    ensures forall d :: 0 <= d < DaysPerRecord ==> a.sums[d] == 0.0 && a.counts[d] == 0
  {
    Accumulator(seq(DaysPerRecord, _ => 0.0), seq(DaysPerRecord, _ => 0))
  }

  /** `np.isfinite(nvals)` as 0/1 per day. */
  function PresentMask(values: seq<Option<real>>): (m: seq<nat>)
    ensures |m| == |values|
  {
    seq(|values|, d requires 0 <= d < |values| => if values[d].Some? then 1 else 0)
  }

  /** `nvals` with the missing days zeroed: what `a[ii] += nvals[ii]` adds. */
  function MaskedValues(values: seq<Option<real>>): (v: seq<real>)
    ensures |v| == |values|
  {
    seq(|values|, d requires 0 <= d < |values| => if values[d].Some? then values[d].value else 0.0)
  }

  /** `acc_n += ii; acc[ii] += nvals[ii]`: on a day with a value the count
      goes up by one and the sum by that value; every other day is left as
      it was. */
  function AddDays(a: Accumulator, values: seq<Option<real>>): (a': Accumulator)
    requires WellSized(a) && |values| == DaysPerRecord
    ensures WellSized(a')
    ensures forall d :: 0 <= d < DaysPerRecord && values[d].Some? ==>
              a'.counts[d] == a.counts[d] + 1 && a'.sums[d] == a.sums[d] + values[d].value
    ensures forall d :: 0 <= d < DaysPerRecord && values[d].None? ==>
              a'.counts[d] == a.counts[d] && a'.sums[d] == a.sums[d]
  {
    var added := MaskedValues(values);
    var present := PresentMask(values);
    Accumulator(seq(DaysPerRecord, d requires 0 <= d < DaysPerRecord => a.sums[d] + added[d]),
                seq(DaysPerRecord, d requires 0 <= d < DaysPerRecord => a.counts[d] + present[d]))
  }

  /** A station north of the equator (latitude > 0) feeds the northern
      totals; every other station, on the equator included, the southern. */
  predicate IsNorth(latitude: real) {
    latitude > 0.0
  }

  /** Add one selected record to exactly one of the two totals. */
  function AddRecord(t: Totals, rec: DayRecord): (t': Totals)
    requires WellSizedTotals(t) && |rec.values| == DaysPerRecord
    ensures WellSizedTotals(t')
    ensures IsNorth(rec.latitude) ==> t'.south == t.south && t'.north == AddDays(t.north, rec.values)
    ensures !IsNorth(rec.latitude) ==> t'.north == t.north && t'.south == AddDays(t.south, rec.values)
  {
    if rec.latitude > 0.0 then t.(north := AddDays(t.north, rec.values))
    else t.(south := AddDays(t.south, rec.values))
  }

  /** One line of a `.dly` file: added when selected, skipped otherwise. */
  function AddLine(t: Totals, lat: map<string, real>, element: string, month: string, line: string): (t': Totals)
    requires WellSizedTotals(t)
    ensures WellSizedTotals(t')
    ensures SelectRecord(lat, element, month, line).None? ==> t' == t
    ensures SelectRecord(lat, element, month, line).Some? ==> t' == AddRecord(t, SelectRecord(lat, element, month, line).value)
  {
    match SelectRecord(lat, element, month, line)
    case None => t
    case Some(rec) => AddRecord(t, rec)
  }

  /** The lines of one file, in order. Lines that are all skipped leave the
      totals as they were. */
  function AddLines(t: Totals, lat: map<string, real>, element: string, month: string, lines: seq<string>): (t': Totals)
    requires WellSizedTotals(t)
    ensures WellSizedTotals(t')
    ensures (forall i :: 0 <= i < |lines| ==> SelectRecord(lat, element, month, lines[i]).None?) ==> t' == t
    decreases |lines|
  {
    if |lines| == 0 then t
    else AddLine(AddLines(t, lat, element, month, lines[..|lines| - 1]), lat, element, month, lines[|lines| - 1])
  }

  /** The files of the directory, in order. File boundaries do not matter:
      the result is that of reading all their lines in one sequence. */
  function AddFiles(t: Totals, lat: map<string, real>, element: string, month: string, files: seq<seq<string>>): (t': Totals)
    requires WellSizedTotals(t)
    ensures WellSizedTotals(t')
    ensures t' == AddLines(t, lat, element, month, Concat(files))
    decreases |files|
  {
    if |files| == 0 then t
    else
      var front := files[..|files| - 1];
      AddLinesAppend(t, lat, element, month, Concat(front), files[|files| - 1]);
      AddLines(AddFiles(t, lat, element, month, front), lat, element, month, files[|files| - 1])
  }

  /** The whole script up to the final division: `None` when the station
      file has an unparseable latitude, otherwise the two totals. */
  function Run(stationLines: seq<string>, files: seq<seq<string>>, element: string, month: string): (r: Option<Totals>)
    ensures r.Some? <==> forall i :: 0 <= i < |stationLines| ==> Latitude(stationLines[i]).Some?
    ensures r.Some? ==> WellSizedTotals(r.value)
  {
    StationTableDomain(stationLines);
    match StationTable(stationLines)
    case None => None
    case Some(lat) => Some(AddFiles(Totals(ZeroAccumulator(), ZeroAccumulator()), lat, element, month, files))
  }

  /** The script as written: January daily maxima. Its totals exist exactly
      when every station latitude parses, and then every record it counts is
      a `TMAX` record for month `01` of a known station. */
  function Script(stationLines: seq<string>, files: seq<seq<string>>): (r: Option<Totals>)
    ensures r.Some? <==> forall i :: 0 <= i < |stationLines| ==> Latitude(stationLines[i]).Some?
    ensures r.Some? ==> WellSizedTotals(r.value)
    ensures r.Some? <==> StationTable(stationLines).Some?
    ensures r.Some? ==> forall line :: SelectRecord(StationTable(stationLines).value, TargetElement, TargetMonth, line).Some?
                          ==> ElementField(line) == "TMAX" && MonthField(line) == "01"
                              && StationId(line) in StationTable(stationLines).value
  {
    StationTableDomain(stationLines);
    Run(stationLines, files, TargetElement, TargetMonth)
  }

  /* ---------------------------------------------------------------------
     The totals, stated record by record
     --------------------------------------------------------------------- */

  /** Line `line` is a selected record from hemisphere `north` that has a
      value on day `d`. */
  predicate Contributes(lat: map<string, real>, element: string, month: string, north: bool, d: nat, line: string)
    requires d < DaysPerRecord
  {
    var r := SelectRecord(lat, element, month, line);
    r.Some? && IsNorth(r.value.latitude) == north && r.value.values[d].Some?
  }

  /** How many lines contribute a value to day `d` of hemisphere `north`. */
  function Contributions(lat: map<string, real>, element: string, month: string, north: bool, d: nat, lines: seq<string>): nat
    requires d < DaysPerRecord
    decreases |lines|
  {
    if |lines| == 0 then 0
    else Contributions(lat, element, month, north, d, lines[..|lines| - 1])
         + (if Contributes(lat, element, month, north, d, lines[|lines| - 1]) then 1 else 0)
  }

  /** The sum of the values those lines contribute to day `d`. */
  function ContributedSum(lat: map<string, real>, element: string, month: string, north: bool, d: nat, lines: seq<string>): real
    requires d < DaysPerRecord
    decreases |lines|
  {
    if |lines| == 0 then 0.0
    else ContributedSum(lat, element, month, north, d, lines[..|lines| - 1])
         + (if Contributes(lat, element, month, north, d, lines[|lines| - 1])
            then SelectRecord(lat, element, month, lines[|lines| - 1]).value.values[d].value
            else 0.0)
  }

  function Hemisphere(t: Totals, north: bool): Accumulator {
    if north then t.north else t.south
  }

  /** After a file's lines, each day's count in a hemisphere has grown by the
      number of selected records from that hemisphere with a value on that
      day, and its sum by the total of those values. */
  lemma {:induction false} AddLinesTotals(t: Totals, lat: map<string, real>, element: string, month: string,
                                          lines: seq<string>, north: bool, d: nat)
    requires WellSizedTotals(t) && d < DaysPerRecord
    ensures Hemisphere(AddLines(t, lat, element, month, lines), north).counts[d]
            == Hemisphere(t, north).counts[d] + Contributions(lat, element, month, north, d, lines)
    ensures Hemisphere(AddLines(t, lat, element, month, lines), north).sums[d]
            == Hemisphere(t, north).sums[d] + ContributedSum(lat, element, month, north, d, lines)
    decreases |lines|
  {
    if |lines| > 0 {
      var front := lines[..|lines| - 1];
      AddLinesTotals(t, lat, element, month, front, north, d);
    }
  }

  /** All the lines of the files, file after file. */
  function Concat(files: seq<seq<string>>): (lines: seq<string>)
    decreases |files|
  {
    if |files| == 0 then [] else Concat(files[..|files| - 1]) + files[|files| - 1]
  }

  lemma {:induction false} AddLinesAppend(t: Totals, lat: map<string, real>, element: string, month: string,
                                          a: seq<string>, b: seq<string>)
    requires WellSizedTotals(t)
    ensures AddLines(t, lat, element, month, a + b)
            == AddLines(AddLines(t, lat, element, month, a), lat, element, month, b)
    decreases |b|
  {
    if |b| > 0 {
      var b' := b[..|b| - 1];
      assert (a + b)[..|a + b| - 1] == a + b';
      assert (a + b)[|a + b| - 1] == b[|b| - 1];
      AddLinesAppend(t, lat, element, month, a, b');
    } else {
      assert a + b == a;
    }
  }

  /** What the script ends with, before dividing: for each hemisphere and
      day, the count is the number of selected records from that hemisphere
      with a value that day, and the sum is the total of those values, over
      all lines of all files. */
  lemma RunTotals(stationLines: seq<string>, files: seq<seq<string>>, element: string, month: string,
                  north: bool, d: nat)
    requires d < DaysPerRecord
    requires forall i :: 0 <= i < |stationLines| ==> Latitude(stationLines[i]).Some?
    ensures Run(stationLines, files, element, month).Some?
    ensures var lat := StationTable(stationLines).value;
            var t := Run(stationLines, files, element, month).value;
            && Hemisphere(t, north).counts[d] == Contributions(lat, element, month, north, d, Concat(files))
            && Hemisphere(t, north).sums[d] == ContributedSum(lat, element, month, north, d, Concat(files))
  {
    StationTableDomain(stationLines);
    var lat := StationTable(stationLines).value;
    var zero := Totals(ZeroAccumulator(), ZeroAccumulator());
    AddLinesTotals(zero, lat, element, month, Concat(files), north, d);
  }

  /** The script's own totals: for each hemisphere and day, the number of
      January `TMAX` records from that hemisphere with a value that day, and
      the total of those values. */
  lemma ScriptTotals(stationLines: seq<string>, files: seq<seq<string>>, north: bool, d: nat)
    requires d < DaysPerRecord
    requires forall i :: 0 <= i < |stationLines| ==> Latitude(stationLines[i]).Some?
    ensures Script(stationLines, files).Some?
    ensures var lat := StationTable(stationLines).value;
            var t := Script(stationLines, files).value;
            && Hemisphere(t, north).counts[d] == Contributions(lat, TargetElement, TargetMonth, north, d, Concat(files))
            && Hemisphere(t, north).sums[d] == ContributedSum(lat, TargetElement, TargetMonth, north, d, Concat(files))
  {
    RunTotals(stationLines, files, TargetElement, TargetMonth, north, d);
  }
}

=== FILE: kmeans.dfy ===
/** Lloyd's k-means algorithm as written in `kmeans` (kmeans.py), over exact
    real coordinates. The data are an n×p matrix given as a sequence of rows;
    the k initial centroids are the rows at the seed indices `ix`, which the
    Python code draws with `np.random.choice` and which are a parameter here. */
module KMeans {
  import opened Wrappers

  type Vector = seq<real>
  type Matrix = seq<Vector>

  /** Every row of `m` has exactly `p` coordinates. */
  predicate Rectangular(m: Matrix, p: nat) {
    forall i :: 0 <= i < |m| ==> |m[i]| == p
  }

  /** Every label names one of `k` clusters. */
  predicate LabelsInRange(labels: seq<nat>, k: nat) {
    forall i :: 0 <= i < |labels| ==> labels[i] < k
  }

  /* ---------------------------------------------------------------------
     Seeding
     --------------------------------------------------------------------- */

  /** The initial centroids: the data rows at the seed indices, in seed
      order. Indices may repeat (the seeds are drawn with replacement). */
  function Seed(data: Matrix, ix: seq<nat>): (cent: Matrix)
    requires forall j :: 0 <= j < |ix| ==> ix[j] < |data|
    ensures |cent| == |ix|
    ensures forall j :: 0 <= j < |cent| ==> cent[j] == data[ix[j]]
  {
    seq(|ix|, j requires 0 <= j < |ix| => data[ix[j]])
  }

  /* ---------------------------------------------------------------------
     Assignment step
     --------------------------------------------------------------------- */

  /** Real multiplication, with the sign rules the proofs below rely on. */
  function Mul(a: real, b: real): (r: real)
    ensures (a > 0.0 && b > 0.0) || (a < 0.0 && b < 0.0) ==> r > 0.0
    ensures a == 0.0 || b == 0.0 ==> r == 0.0
  {
    a * b
  }

  /** `e ** 2`: never negative, and zero only for zero. */
  function Square(e: real): (s: real)
    ensures s >= 0.0
    ensures s == 0.0 <==> e == 0.0
  {
    Mul(e, e)
  }

  /** Squared Euclidean distance, `((x - c) ** 2).sum()`. It is never
      negative and is zero exactly when the two vectors coincide. */
  function SqDist(x: Vector, c: Vector): (d: real)
    requires |x| == |c|
    ensures d >= 0.0
    ensures d == 0.0 <==> x == c
  {
    if |x| == 0 then 0.0
    else
      assert x == [x[0]] + x[1..] && c == [c[0]] + c[1..];
      Square(x[0] - c[0]) + SqDist(x[1..], c[1..])
  }

  /** The n×k table of squared distances from every point to every centroid. */
  function DistanceTable(data: Matrix, cent: Matrix, p: nat): (dist: seq<seq<real>>)
    requires Rectangular(data, p) && Rectangular(cent, p)
    ensures |dist| == |data|
    ensures forall i :: 0 <= i < |dist| ==> |dist[i]| == |cent|
    ensures forall i, j :: 0 <= i < |dist| && 0 <= j < |cent| ==>
              dist[i][j] == SqDist(data[i], cent[j])
  {
    seq(|data|, i requires 0 <= i < |data| =>
      seq(|cent|, j requires 0 <= j < |cent| => SqDist(data[i], cent[j])))
  }

  /** `m` is the position of a minimum of `row`, and no earlier position
      holds that minimum. */
  ghost predicate IsFirstMin(row: seq<real>, m: nat) {
    && m < |row|
    && (forall j :: 0 <= j < |row| ==> row[m] <= row[j])
    && (forall j :: 0 <= j < m ==> row[m] < row[j])
  }

  /** numpy's `argmin` on a row of reals: the lowest index of a minimum. */
  function Argmin(row: seq<real>): (m: nat)
    requires |row| >= 1
    ensures IsFirstMin(row, m)
  {
    if |row| == 1 then 0
    else
      var front := row[..|row| - 1];
      var m := Argmin(front);
      assert forall j :: 0 <= j < |row| - 1 ==> row[j] == front[j];
      if row[|row| - 1] < row[m] then |row| - 1 else m
  }

  /** `j` indexes a centroid nearest to `x`, the lowest such index. */
  ghost predicate IsNearest(x: Vector, cent: Matrix, j: nat)
    requires forall m :: 0 <= m < |cent| ==> |cent[m]| == |x|
  {
    && j < |cent|
    && (forall m :: 0 <= m < |cent| ==> SqDist(x, cent[j]) <= SqDist(x, cent[m]))
    && (forall m :: 0 <= m < j ==> SqDist(x, cent[j]) < SqDist(x, cent[m]))
  }

  /** One assignment step: every point gets the label of its nearest
      centroid, ties going to the lowest index. */
  function Assign(data: Matrix, cent: Matrix, p: nat): (labels: seq<nat>)
    requires Rectangular(data, p) && Rectangular(cent, p) && |cent| >= 1
    ensures |labels| == |data|
    ensures LabelsInRange(labels, |cent|)
    ensures forall i :: 0 <= i < |data| ==> IsNearest(data[i], cent, labels[i])
  {
    var dist := DistanceTable(data, cent, p);
    seq(|data|, i requires 0 <= i < |data| => Argmin(dist[i]))
  }

  /* ---------------------------------------------------------------------
     Update step
     --------------------------------------------------------------------- */

  /** The number of points labelled `j`. */
  function Count(labels: seq<nat>, j: nat): nat
  {
    if |labels| == 0 then 0
    else (if labels[0] == j then 1 else 0) + Count(labels[1..], j)
  }

  /** Coordinate `t` summed over the rows labelled `j`. */
  function ClusterSum(data: Matrix, labels: seq<nat>, j: nat, t: nat): real
    requires |labels| == |data|
    requires forall i :: 0 <= i < |data| ==> t < |data[i]|
  {
    if |data| == 0 then 0.0
    else (if labels[0] == j then data[0][t] else 0.0) + ClusterSum(data[1..], labels[1..], j, t)
  }

  /** Coordinate `t` of the deviations from `c` summed over the rows labelled
      `j`: the mean of a cluster is the point from which these vanish. */
  function Deviation(data: Matrix, labels: seq<nat>, j: nat, c: Vector, t: nat): real
    requires |labels| == |data|
    requires t < |c| && forall i :: 0 <= i < |data| ==> t < |data[i]|
  {
    if |data| == 0 then 0.0
    else (if labels[0] == j then data[0][t] - c[t] else 0.0) + Deviation(data[1..], labels[1..], j, c, t)
  }

  /** `c` is the coordinate-wise mean of the (non-empty) cluster `j`. */
  ghost predicate IsMeanOf(data: Matrix, labels: seq<nat>, j: nat, c: Vector, p: nat)
    requires Rectangular(data, p) && |labels| == |data|
  {
    && |c| == p
    && Count(labels, j) > 0
    && forall t :: 0 <= t < p ==> Deviation(data, labels, j, c, t) == 0.0
  }

  /** The summed deviations are the cluster sum less count copies of `c`. */
  lemma {:induction false} DeviationIsSumMinusCount(data: Matrix, labels: seq<nat>, j: nat, c: Vector, t: nat)
    requires |labels| == |data|
    requires t < |c| && forall i :: 0 <= i < |data| ==> t < |data[i]|
    ensures Deviation(data, labels, j, c, t) == ClusterSum(data, labels, j, t) - Count(labels, j) as real * c[t]
  {
    if |data| > 0 {
      DeviationIsSumMinusCount(data[1..], labels[1..], j, c, t);
    }
  }

  /** The mean of cluster `j`: its coordinate sums divided by its size. */
  function ClusterMean(data: Matrix, labels: seq<nat>, j: nat, p: nat): (c: Vector)
    requires Rectangular(data, p) && |labels| == |data|
    requires Count(labels, j) > 0
    ensures IsMeanOf(data, labels, j, c, p)
  {
    var n := Count(labels, j) as real;
    var c := seq(p, t requires 0 <= t < p => ClusterSum(data, labels, j, t) / n);
    forall t | 0 <= t < p
      ensures Deviation(data, labels, j, c, t) == 0.0
    {
      DeviationIsSumMinusCount(data, labels, j, c, t);
    }
    c
  }

  /** Two solutions of `s == n * a` with positive `n` coincide. */
  lemma Cancel(s: real, n: real, a: real, b: real)
    requires n > 0.0 && s - n * a == 0.0 && s - n * b == 0.0
    ensures a == b
  {
  }

  /** A cluster has only one mean. */
  lemma MeanIsUnique(data: Matrix, labels: seq<nat>, j: nat, c: Vector, c': Vector, p: nat)
    requires Rectangular(data, p) && |labels| == |data|
    requires IsMeanOf(data, labels, j, c, p) && IsMeanOf(data, labels, j, c', p)
    ensures c == c'
  {
    var n := Count(labels, j) as real;
    forall t | 0 <= t < p
      ensures c[t] == c'[t]
    {
      DeviationIsSumMinusCount(data, labels, j, c, t);
      DeviationIsSumMinusCount(data, labels, j, c', t);
      assert Deviation(data, labels, j, c, t) == 0.0;
      assert Deviation(data, labels, j, c', t) == 0.0;
      Cancel(ClusterSum(data, labels, j, t), n, c[t], c'[t]);
    }
  }

  /** One update step: the centroid of every non-empty cluster becomes the
      mean of its points; an empty cluster keeps its previous centroid. */
  function UpdateCentroids(data: Matrix, labels: seq<nat>, cent: Matrix, p: nat): (cent': Matrix)
    requires Rectangular(data, p) && Rectangular(cent, p) && |labels| == |data|
    ensures |cent'| == |cent| && Rectangular(cent', p)
    ensures forall j :: 0 <= j < |cent| && Count(labels, j) > 0 ==> IsMeanOf(data, labels, j, cent'[j], p)
    ensures forall j :: 0 <= j < |cent| && Count(labels, j) == 0 ==> cent'[j] == cent[j]
  {
    seq(|cent|, j requires 0 <= j < |cent| =>
      if Count(labels, j) > 0 then ClusterMean(data, labels, j, p) else cent[j])
  }

  /** Every non-empty cluster's centroid is the mean of its points. */
  ghost predicate CentroidsFit(data: Matrix, labels: seq<nat>, cent: Matrix, p: nat)
    requires Rectangular(data, p)
  {
    && |labels| == |data|
    && forall j :: 0 <= j < |cent| && Count(labels, j) > 0 ==> IsMeanOf(data, labels, j, cent[j], p)
  }

  /** One round of Lloyd's iteration from the centroids `c`: assign every
      point to its nearest centroid, then move the centroids to the means. */
  function Step(data: Matrix, p: nat, c: Matrix): (c': Matrix)
    requires Rectangular(data, p) && Rectangular(c, p) && |c| >= 1
    ensures |c'| == |c| && Rectangular(c', p)
  {
    UpdateCentroids(data, Assign(data, c, p), c, p)
  }

  /** The centroids after `m` rounds of Lloyd's iteration from `c`. */
  function Iterate(data: Matrix, p: nat, c: Matrix, m: nat): (c': Matrix)
    requires Rectangular(data, p) && Rectangular(c, p) && |c| >= 1
    ensures |c'| == |c| && Rectangular(c', p)
    decreases m
  {
    if m == 0 then c else Iterate(data, p, Step(data, p, c), m - 1)
  }

  /* ---------------------------------------------------------------------
     The refinement loop
     --------------------------------------------------------------------- */

  /** What `kmeans` returns (labels and centroids), with how many rounds of
      its loop ran and whether it left through the fixed-point `break`. */
  datatype Clustering = Clustering(labels: seq<nat>, centroids: Matrix, rounds: nat, converged: bool)

  /** `labels` and `centroids` are what a round that does not stop leaves
      behind when it starts from the k centroids `c`: the labels assigned
      against `c`, and the centroids updated from those labels. */
  ghost predicate LastRound(data: Matrix, p: nat, c: Matrix, k: nat, labels: seq<nat>, centroids: Matrix)
    requires Rectangular(data, p)
  {
    && Rectangular(c, p) && |c| == k && k >= 1
    && labels == Assign(data, c, p)
    && centroids == UpdateCentroids(data, labels, c, p)
  }

  /** The loop of `kmeans` with `remaining` rounds still allowed, current
      centroids `cent` and previous labels `prev` (None before the first
      round). Each round assigns; stops if nothing changed; otherwise adopts
      the new labels and moves every centroid to its cluster's mean. */
  function Rounds(data: Matrix, p: nat, cent: Matrix, prev: Option<seq<nat>>, remaining: nat): (r: Clustering)
    requires Rectangular(data, p) && Rectangular(cent, p) && |cent| >= 1
    requires remaining >= 1
    ensures |r.labels| == |data| && LabelsInRange(r.labels, |cent|)
    ensures |r.centroids| == |cent| && Rectangular(r.centroids, p)
    ensures 1 <= r.rounds <= remaining
    ensures !r.converged ==> r.rounds == remaining
    ensures r.converged ==> Assign(data, r.centroids, p) == r.labels
    ensures r.converged && r.rounds == 1 ==> prev == Some(r.labels)
    ensures prev.None? || CentroidsFit(data, prev.value, cent, p) ==> CentroidsFit(data, r.labels, r.centroids, p)
    ensures !r.converged ==> exists c :: LastRound(data, p, c, |cent|, r.labels, r.centroids)
    decreases remaining
  {
    var labels := Assign(data, cent, p);
    if prev == Some(labels) then
      Clustering(labels, cent, 1, true)
    else
      var cent' := UpdateCentroids(data, labels, cent, p);
      if remaining == 1 then
        assert LastRound(data, p, cent, |cent|, labels, cent');
        Clustering(labels, cent', 1, false)
      else
        var r := Rounds(data, p, cent', Some(labels), remaining - 1);
        r.(rounds := r.rounds + 1)
  }

  /** One round of Lloyd's iteration, taken first. */
  lemma IterateFirst(data: Matrix, p: nat, c: Matrix, m: nat)
    requires Rectangular(data, p) && Rectangular(c, p) && |c| >= 1
    requires m >= 1
    ensures Iterate(data, p, c, m) == Iterate(data, p, Step(data, p, c), m - 1)
  {
  }

  /** A round that neither converges nor exhausts the budget hands the loop
      on to the updated centroids, counting itself. */
  lemma RoundsContinue(data: Matrix, p: nat, cent: Matrix, prev: Option<seq<nat>>, remaining: nat)
    requires Rectangular(data, p) && Rectangular(cent, p) && |cent| >= 1
    requires remaining >= 2 && prev != Some(Assign(data, cent, p))
    ensures var r := Rounds(data, p, cent, prev, remaining);
            var r' := Rounds(data, p, Step(data, p, cent), Some(Assign(data, cent, p)), remaining - 1);
            && r.labels == r'.labels && r.centroids == r'.centroids
            && r.rounds == r'.rounds + 1 && r.converged == r'.converged
  {
  }

  /** The first round is the last one when it converges or exhausts the budget. */
  lemma RoundsStop(data: Matrix, p: nat, cent: Matrix, prev: Option<seq<nat>>, remaining: nat)
    requires Rectangular(data, p) && Rectangular(cent, p) && |cent| >= 1
    requires remaining >= 1 && (remaining == 1 || prev == Some(Assign(data, cent, p)))
    ensures var r := Rounds(data, p, cent, prev, remaining);
            && r.rounds == 1 && r.labels == Assign(data, cent, p)
            && (r.converged ==> r.centroids == cent)
            && (!r.converged ==> r.centroids == Step(data, p, cent))
  {
  }

  /** `r` is what Lloyd's iteration from `c` gives: its labels are the
      assignment against the centroids reached after one round fewer than it
      ran, and its centroids are those when it converged and their update
      when it ran out of rounds. */
  ghost predicate FollowsLloyd(data: Matrix, p: nat, c: Matrix, r: Clustering)
    requires Rectangular(data, p) && Rectangular(c, p) && |c| >= 1
  {
    && r.rounds >= 1
    && var last := Iterate(data, p, c, r.rounds - 1);
       && r.labels == Assign(data, last, p)
       && r.centroids == if r.converged then last else Step(data, p, last)
  }

  /** One round of Lloyd's iteration in front of a run from `Step(cent)`
      is a run from `cent`. */
  lemma FollowOneMore(data: Matrix, p: nat, cent: Matrix, r: Clustering, r': Clustering)
    requires Rectangular(data, p) && Rectangular(cent, p) && |cent| >= 1
    requires r.labels == r'.labels && r.centroids == r'.centroids
    requires r.rounds == r'.rounds + 1 && r.converged == r'.converged
    requires FollowsLloyd(data, p, Step(data, p, cent), r')
    ensures FollowsLloyd(data, p, cent, r)
  {
    IterateFirst(data, p, cent, r'.rounds);
  }

  /** The loop follows Lloyd's iteration from `cent`. */
  lemma {:induction false} RoundsFollowLloyd(data: Matrix, p: nat, cent: Matrix, prev: Option<seq<nat>>, remaining: nat)
    requires Rectangular(data, p) && Rectangular(cent, p) && |cent| >= 1
    requires remaining >= 1
    ensures FollowsLloyd(data, p, cent, Rounds(data, p, cent, prev, remaining))
    decreases remaining
  {
    if remaining == 1 || prev == Some(Assign(data, cent, p)) {
      RoundsStop(data, p, cent, prev, remaining);
    } else {
      RoundsContinue(data, p, cent, prev, remaining);
      forall c: Matrix, q: Option<seq<nat>>, k: nat | Rectangular(c, p) && |c| >= 1 && 1 <= k < remaining
        ensures FollowsLloyd(data, p, c, Rounds(data, p, c, q, k))
      {
        RoundsFollowLloyd(data, p, c, q, k);
      }
      FollowOneMore(data, p, cent, Rounds(data, p, cent, prev, remaining),
                    Rounds(data, p, Step(data, p, cent), Some(Assign(data, cent, p)), remaining - 1));
    }
  }

  /** `kmeans(da, k, maxiter)` with the random seed indices `ix` (k = |ix|)
      given explicitly. */
  function Kmeans(data: Matrix, p: nat, ix: seq<nat>, maxiter: nat): (r: Clustering)
    requires Rectangular(data, p)
    requires |ix| >= 1 && forall j :: 0 <= j < |ix| ==> ix[j] < |data|
    requires maxiter >= 1
    ensures |r.labels| == |data| && LabelsInRange(r.labels, |ix|)
    ensures |r.centroids| == |ix| && Rectangular(r.centroids, p)
    ensures 1 <= r.rounds <= maxiter
    ensures !r.converged ==> r.rounds == maxiter
    ensures r.converged ==> Assign(data, r.centroids, p) == r.labels
    ensures CentroidsFit(data, r.labels, r.centroids, p)
    ensures !r.converged ==> exists c :: LastRound(data, p, c, |ix|, r.labels, r.centroids)
    ensures FollowsLloyd(data, p, Seed(data, ix), r)
  {
    RoundsFollowLloyd(data, p, Seed(data, ix), None, maxiter);
    Rounds(data, p, Seed(data, ix), None, maxiter)
  }
}

/** Properties of the k-means model that relate several of its operations. */
module KMeansProperties {
  import opened Wrappers
  import opened KMeans

  /** `Argmin` is the only position that is a first minimum. */
  lemma ArgminIsUnique(row: seq<real>, m: nat)
    requires |row| >= 1
    ensures IsFirstMin(row, m) <==> m == Argmin(row)
  {
  }

  /** The nearest-centroid rule determines the assignment completely: a
      labelling obeys it at every point exactly when it is `Assign`'s. */
  lemma AssignIsTheNearestRule(data: Matrix, cent: Matrix, p: nat, labels: seq<nat>)
    requires Rectangular(data, p) && Rectangular(cent, p) && |cent| >= 1
    ensures (|labels| == |data| && forall i :: 0 <= i < |data| ==> IsNearest(data[i], cent, labels[i]))
            <==> labels == Assign(data, cent, p)
  {
  }

  /** Before any update, the data row each centroid was seeded from lies at
      distance zero from its assigned centroid, and that centroid is the
      earliest seed equal to the row, so its label is at most the seed's
      position (seeds may repeat, so it may be smaller). */
  lemma SeedRowsSitOnTheirCentroids(data: Matrix, p: nat, ix: seq<nat>)
    requires Rectangular(data, p)
    requires |ix| >= 1 && forall j :: 0 <= j < |ix| ==> ix[j] < |data|
    ensures forall j :: 0 <= j < |ix| ==>
              var cent := Seed(data, ix);
              var l := Assign(data, cent, p)[ix[j]];
              && l <= j
              && SqDist(data[ix[j]], cent[l]) == 0.0
              && cent[l] == data[ix[j]]
              && (forall m :: 0 <= m < l ==> cent[m] != data[ix[j]])
  {
    var cent := Seed(data, ix);
    var labels := Assign(data, cent, p);
    forall j | 0 <= j < |ix|
      ensures labels[ix[j]] <= j
      ensures cent[labels[ix[j]]] == data[ix[j]]
      ensures forall m :: 0 <= m < labels[ix[j]] ==> cent[m] != data[ix[j]]
    {
      var x := data[ix[j]];
      var l := labels[ix[j]];
      assert cent[j] == x;
      assert IsNearest(x, cent, l);
      assert SqDist(x, cent[j]) == 0.0;
      assert SqDist(x, cent[l]) == 0.0;
      forall m | 0 <= m < l
        ensures cent[m] != x
      {
        assert SqDist(x, cent[m]) > SqDist(x, cent[l]);
      }
    }
  }

  /** The new centroid of cluster `j` depends only on which points are in
      `j` and on its own previous centroid: relabelling points among the
      other clusters, or moving the other centroids, leaves it unchanged. */
  lemma UpdateIsPerCluster(data: Matrix, p: nat, labels: seq<nat>, labels': seq<nat>,
                           cent: Matrix, cent': Matrix, j: nat)
    requires Rectangular(data, p) && Rectangular(cent, p) && Rectangular(cent', p)
    requires |labels| == |data| && |labels'| == |data|
    requires |cent| == |cent'| && j < |cent| && cent[j] == cent'[j]
    requires forall i :: 0 <= i < |data| ==> (labels[i] == j <==> labels'[i] == j)
    ensures UpdateCentroids(data, labels, cent, p)[j] == UpdateCentroids(data, labels', cent', p)[j]
  {
    SameMembersSameCount(labels, labels', j);
    if Count(labels, j) > 0 {
      forall t | 0 <= t < p
        ensures ClusterSum(data, labels, j, t) == ClusterSum(data, labels', j, t)
      {
        SameMembersSameSum(data, p, labels, labels', j, t);
      }
    }
  }

  lemma {:induction false} SameMembersSameCount(labels: seq<nat>, labels': seq<nat>, j: nat)
    requires |labels| == |labels'|
    requires forall i :: 0 <= i < |labels| ==> (labels[i] == j <==> labels'[i] == j)
    ensures Count(labels, j) == Count(labels', j)
  {
    if |labels| > 0 {
      SameMembersSameCount(labels[1..], labels'[1..], j);
    }
  }

  lemma {:induction false} SameMembersSameSum(data: Matrix, p: nat, labels: seq<nat>, labels': seq<nat>, j: nat, t: nat)
    requires Rectangular(data, p) && t < p
    requires |labels| == |data| && |labels'| == |data|
    requires forall i :: 0 <= i < |data| ==> (labels[i] == j <==> labels'[i] == j)
    ensures ClusterSum(data, labels, j, t) == ClusterSum(data, labels', j, t)
  {
    if |data| > 0 {
      SameMembersSameSum(data[1..], p, labels[1..], labels'[1..], j, t);
    }
  }

  /** Taking `n` rounds of Lloyd's iteration is taking `n - 1` rounds and
      then one more. */
  lemma {:induction false} IterateTakesLastStep(data: Matrix, p: nat, c: Matrix, n: nat)
    requires Rectangular(data, p) && Rectangular(c, p) && |c| >= 1
    requires n >= 1
    ensures Iterate(data, p, c, n) == Step(data, p, Iterate(data, p, c, n - 1))
    decreases n
  {
    if n > 1 {
      IterateTakesLastStep(data, p, Step(data, p, c), n - 1);
      IterateFirst(data, p, c, n);
      IterateFirst(data, p, c, n - 1);
    }
  }

  /** A run that did not converge holds the centroids after as many rounds
      of Lloyd's iteration as it ran. */
  lemma UnconvergedHoldsIterate(data: Matrix, p: nat, c: Matrix, r: Clustering)
    requires Rectangular(data, p) && Rectangular(c, p) && |c| >= 1
    requires FollowsLloyd(data, p, c, r) && !r.converged
    ensures r.centroids == Iterate(data, p, c, r.rounds)
  {
    IterateTakesLastStep(data, p, c, r.rounds);
  }

  /** When `kmeans` reaches `maxiter` rounds without converging, it returns
      the centroids after exactly `maxiter` rounds of Lloyd's iteration from
      the seed rows. */
  lemma UnconvergedRunsAllRounds(data: Matrix, p: nat, ix: seq<nat>, maxiter: nat)
    requires Rectangular(data, p)
    requires |ix| >= 1 && forall j :: 0 <= j < |ix| ==> ix[j] < |data|
    requires maxiter >= 1
    ensures !Kmeans(data, p, ix, maxiter).converged ==>
              Kmeans(data, p, ix, maxiter).centroids == Iterate(data, p, Seed(data, ix), maxiter)
  {
    if !Kmeans(data, p, ix, maxiter).converged {
      UnconvergedHoldsIterate(data, p, Seed(data, ix), Kmeans(data, p, ix, maxiter));
    }
  }

  /** A fixed point is stable: resuming the loop from what `Kmeans` returned
      after converging stops in its first round and returns the same labels
      and centroids. */
  lemma ConvergedIsStable(data: Matrix, p: nat, ix: seq<nat>, maxiter: nat, more: nat)
    requires Rectangular(data, p)
    requires |ix| >= 1 && forall j :: 0 <= j < |ix| ==> ix[j] < |data|
    requires maxiter >= 1 && more >= 1
    ensures var r := Kmeans(data, p, ix, maxiter);
            r.converged ==>
              Rounds(data, p, r.centroids, Some(r.labels), more) == Clustering(r.labels, r.centroids, 1, true)
  {
  }

  /** The labelling `Kmeans` returns after converging is the labelling of its
      own centroids, and the centroids are the means of its non-empty
      clusters: labels and centroids determine each other. */
  lemma ConvergedLabelsAndCentroidsAgree(data: Matrix, p: nat, ix: seq<nat>, maxiter: nat)
    requires Rectangular(data, p)
    requires |ix| >= 1 && forall j :: 0 <= j < |ix| ==> ix[j] < |data|
    requires maxiter >= 1
    ensures var r := Kmeans(data, p, ix, maxiter);
            r.converged ==>
              && UpdateCentroids(data, r.labels, r.centroids, p) == r.centroids
              && Assign(data, r.centroids, p) == r.labels
  {
    var r := Kmeans(data, p, ix, maxiter);
    if r.converged {
      var u := UpdateCentroids(data, r.labels, r.centroids, p);
      forall j | 0 <= j < |u|
        ensures u[j] == r.centroids[j]
      {
        if Count(r.labels, j) > 0 {
          MeanIsUnique(data, r.labels, j, u[j], r.centroids[j], p);
        }
      }
    }
  }
}

=== FILE: pytext.dfy ===
/** The two pieces of Python text handling the GHCN script relies on: string
    slicing `s[lo:hi]`, which clamps out-of-range bounds instead of failing,
    and `float(s)`, which either returns a number or raises `ValueError`
    (modelled as `None`). Strings are sequences of characters. */
module PyText {
  import opened Wrappers

  function Min(a: nat, b: nat): nat {
    if a <= b then a else b
  }

  /* ---------------------------------------------------------------------
     Slicing
     --------------------------------------------------------------------- */

  /** `s[lo:hi]` for non-negative bounds: the characters at positions
      `lo, lo+1, ...` that are below both `hi` and `|s|`; empty when there
      are none. */
  function Slice(s: string, lo: nat, hi: nat): (r: string)
    ensures |r| == if lo < Min(hi, |s|) then Min(hi, |s|) - lo else 0
    ensures forall k :: 0 <= k < |r| ==> r[k] == s[lo + k]
    ensures lo <= hi <= |s| ==> r == s[lo..hi]
  {
    var a := Min(lo, |s|);
    var b := if Min(hi, |s|) < a then a else Min(hi, |s|);
    s[a..b]
  }

  /* ---------------------------------------------------------------------
     Characters
     --------------------------------------------------------------------- */

  /** The characters `float()` skips around an ASCII number: blank and the
      five controls tab to carriage return (0x09-0x0D). The information
      separators 0x1C-0x1F, which `str.isspace()` also counts, are not
      skipped by `float()` in ASCII text. */
  predicate IsSpace(c: char) {
    c == ' ' || '\t' <= c <= '\r'
  }

  predicate AllSpace(s: string) {
    forall k :: 0 <= k < |s| ==> IsSpace(s[k])
  }

  predicate IsDigit(c: char) {
    '0' <= c <= '9'
  }

  predicate AllDigits(s: string) {
    forall k :: 0 <= k < |s| ==> IsDigit(s[k])
  }

  function DigitValue(c: char): nat
    requires IsDigit(c)
  {
    c as int - '0' as int
  }

  function Pow10(e: nat): (r: nat)
    ensures r >= 1
  {
    if e == 0 then 1 else 10 * Pow10(e - 1)
  }

  /** The number a run of decimal digits denotes, most significant first. */
  function DigitsValue(s: string): nat
    requires AllDigits(s)
  {
    if |s| == 0 then 0
    else 10 * DigitsValue(s[..|s| - 1]) + DigitValue(s[|s| - 1])
  }

  /** How many decimal digits `s` starts with. */
  function LeadingDigits(s: string): (k: nat)
    ensures k <= |s|
    ensures AllDigits(s[..k])
    ensures k < |s| ==> !IsDigit(s[k])
  {
    if |s| == 0 || !IsDigit(s[0]) then 0
    else
      var k := 1 + LeadingDigits(s[1..]);
      assert forall m :: 1 <= m < k ==> s[..k][m] == s[1..][..k - 1][m - 1];
      k
  }

  /* ---------------------------------------------------------------------
     Stripping white space
     --------------------------------------------------------------------- */

  /** `s` without its leading white space. */
  function TrimLeft(s: string): (r: string)
    ensures |r| <= |s| && r == s[|s| - |r|..]
    ensures |r| == 0 || !IsSpace(r[0])
    ensures forall k :: 0 <= k < |s| - |r| ==> IsSpace(s[k])
  {
    if |s| > 0 && IsSpace(s[0]) then TrimLeft(s[1..]) else s
  }

  /** `s` without its trailing white space. */
  function TrimRight(s: string): (r: string)
    ensures |r| <= |s| && r == s[..|r|]
    ensures |r| == 0 || !IsSpace(r[|r| - 1])
    ensures forall k :: |r| <= k < |s| ==> IsSpace(s[k])
  {
    if |s| > 0 && IsSpace(s[|s| - 1]) then TrimRight(s[..|s| - 1]) else s
  }

  /** The text `float()` parses: `s` without its surrounding white space. */
  function Strip(s: string): string {
    TrimRight(TrimLeft(s))
  }

  /* ---------------------------------------------------------------------
     float()
     --------------------------------------------------------------------- */

  /** The position of the first point in `t`, or `|t|` when it has none. */
  function PointIndex(t: string): (i: nat)
    ensures i <= |t|
    ensures i < |t| ==> t[i] == '.'
    ensures forall j :: 0 <= j < i ==> t[j] != '.'
  {
    if |t| == 0 || t[0] == '.' then 0 else 1 + PointIndex(t[1..])
  }

  /** The digits before the first point. */
  function WholePart(t: string): string {
    t[..PointIndex(t)]
  }

  /** The digits after the first point (none when there is no point). */
  function FractionPart(t: string): string {
    if PointIndex(t) < |t| then t[PointIndex(t) + 1..] else ""
  }

  /** An unsigned decimal literal: a run of digits, or digits with one
      point among them and at least one digit on either side of it. */
  predicate IsUnsignedLiteral(t: string) {
    && AllDigits(WholePart(t))
    && AllDigits(FractionPart(t))
    && |WholePart(t)| + |FractionPart(t)| > 0
  }

  /** An unsigned literal, optionally preceded by `+` or `-`. */
  predicate IsSignedLiteral(t: string) {
    || IsUnsignedLiteral(t)
    || (|t| > 0 && (t[0] == '+' || t[0] == '-') && IsUnsignedLiteral(t[1..]))
  }

  /** The number denoted by the digits `w` before a point and `f` after it. */
  function DecimalValue(w: string, f: string): real
    requires AllDigits(w) && AllDigits(f)
  {
    DigitsValue(w) as real + DigitsValue(f) as real / Pow10(|f|) as real
  }

  /** An unsigned decimal literal `digits`, `digits.`, `.digits` or
      `digits.digits`; anything else is `None`. Its value is the whole part
      plus the fraction. */
  function ParseUnsigned(t: string): (r: Option<real>)
    ensures r.Some? <==> IsUnsignedLiteral(t)
    ensures r.Some? ==> r.value == DecimalValue(WholePart(t), FractionPart(t))
    ensures r.Some? ==> r.value >= 0.0
  {
    var k := LeadingDigits(t);
    if k == |t| then
      DigitsOnly(t);
      if k > 0 then Some(DecimalValue(t, "")) else None
    else if t[k] != '.' then
      NotALiteral(t);
      None
    else
      PointAfterDigits(t);
      var frac := t[k + 1..];
      if AllDigits(frac) && (k > 0 || |frac| > 0) then
        Some(DecimalValue(t[..k], frac))
      else
        None
  }

  /** Text made only of digits is its own whole part and has no fraction. */
  lemma DigitsOnly(t: string)
    requires LeadingDigits(t) == |t|
    ensures PointIndex(t) == |t| && WholePart(t) == t && FractionPart(t) == ""
    ensures IsUnsignedLiteral(t) <==> |t| > 0
  {
    assert t[..|t|] == t;
    assert forall m :: 0 <= m < |t| ==> t[m] != '.' by {
      assert forall m :: 0 <= m < |t| ==> t[..|t|][m] == t[m];
    }
  }

  /** Leading digits followed by a point: the point splits the literal. */
  lemma PointAfterDigits(t: string)
    requires LeadingDigits(t) < |t| && t[LeadingDigits(t)] == '.'
    ensures var k := LeadingDigits(t);
            && PointIndex(t) == k && WholePart(t) == t[..k] && FractionPart(t) == t[k + 1..]
            && (IsUnsignedLiteral(t) <==> AllDigits(t[k + 1..]) && (k > 0 || |t| - k - 1 > 0))
  {
    var k := LeadingDigits(t);
    assert forall m :: 0 <= m < k ==> t[m] != '.' by {
      assert forall m :: 0 <= m < k ==> t[..k][m] == t[m];
    }
    assert PointIndex(t) == k;
  }

  /** Leading digits followed by anything but a point: no literal. */
  lemma NotALiteral(t: string)
    requires LeadingDigits(t) < |t| && t[LeadingDigits(t)] != '.'
    ensures !IsUnsignedLiteral(t)
  {
    var k := LeadingDigits(t);
    var i := PointIndex(t);
    if IsUnsignedLiteral(t) {
      LeadingDigitsAt(t, i);
    }
  }

  lemma LeadingDigitsAt(t: string, k: nat)
    requires k <= |t| && AllDigits(t[..k])
    requires k < |t| ==> !IsDigit(t[k])
    ensures LeadingDigits(t) == k
  {
    var n := LeadingDigits(t);
    assert forall m :: 0 <= m < k ==> IsDigit(t[m]) by {
      assert forall m :: 0 <= m < k ==> t[..k][m] == t[m];
    }
    assert forall m :: 0 <= m < n ==> IsDigit(t[m]) by {
      assert forall m :: 0 <= m < n ==> t[..n][m] == t[m];
    }
  }

  /** An unsigned literal with an optional leading sign. The result is
      negative only for a leading `-`, and a leading `-` never gives a
      positive number. */
  function ParseSigned(t: string): (r: Option<real>)
    ensures r.Some? <==> IsSignedLiteral(t)
    ensures r.Some? ==> HasDigit(t)
    ensures r.Some? && r.value < 0.0 ==> t[0] == '-'
    ensures r.Some? && t[0] == '-' ==> r.value <= 0.0
  {
    if |t| > 0 && (t[0] == '+' || t[0] == '-') then
      SignIsNotUnsigned(t);
      match ParseUnsigned(t[1..])
      case None => None
      case Some(v) =>
        UnsignedLiteralEnds(t[1..]);
        DigitAfterSign(t);
        Some(if t[0] == '-' then -v else v)
    else
      var r := ParseUnsigned(t);
      if r.Some? then UnsignedLiteralEnds(t); r else r
  }

  /** Text that starts with a sign is not an unsigned literal. */
  lemma SignIsNotUnsigned(t: string)
    requires |t| > 0 && (t[0] == '+' || t[0] == '-')
    ensures !IsUnsignedLiteral(t)
  {
    assert PointIndex(t) > 0;
    assert WholePart(t)[0] == t[0];
  }

  lemma DigitAfterSign(t: string)
    requires |t| > 0 && HasDigit(t[1..])
    ensures HasDigit(t)
  {
    var k :| 0 <= k < |t[1..]| && IsDigit(t[1..][k]);
    assert IsDigit(t[k + 1]);
  }

  /** `float(s)` on decimal text: surrounding white space is ignored, an
      optional sign may precede an unsigned literal, and every other input
      is a `ValueError`, here `None`. */
  function ParseFloat(s: string): (r: Option<real>)
    ensures r.Some? <==> IsSignedLiteral(Strip(s))
    ensures r.Some? ==> HasDigit(s)
  {
    var t := Strip(s);
    var r := ParseSigned(t);
    if r.Some? then HasDigitWithin(s, t); r else r
  }

  predicate HasDigit(s: string) {
    exists k :: 0 <= k < |s| && IsDigit(s[k])
  }

  /** A digit of a suffix of the stripped text is a digit of the text. */
  lemma HasDigitWithin(s: string, t: string)
    requires t == Strip(s)
    requires HasDigit(t)
    ensures HasDigit(s)
  {
  }

  /* ---------------------------------------------------------------------
     Formatting integers, the inverse of float() on integral text
     --------------------------------------------------------------------- */

  function DigitChar(d: nat): (c: char)
    requires d < 10
    ensures IsDigit(c) && DigitValue(c) == d
  {
    ('0' as int + d) as char
  }

  /** The decimal digits of `n`, without leading zeros ("0" for zero). */
  function FormatNat(n: nat): (s: string)
    ensures |s| >= 1 && AllDigits(s)
    decreases n
  {
    if n < 10 then [DigitChar(n)]
    else FormatNat(n / 10) + [DigitChar(n % 10)]
  }

  /** `str(n)` for an integer: a minus sign for negatives, then the digits. */
  function FormatInt(n: int): (s: string)
    ensures |s| >= 1 && !IsSpace(s[0]) && !IsSpace(s[|s| - 1])
  {
    if n < 0 then "-" + FormatNat(-n) else FormatNat(n)
  }

  /** `w` blanks. */
  function Spaces(w: nat): (s: string)
    ensures |s| == w && AllSpace(s)
  {
    if w == 0 then "" else " " + Spaces(w - 1)
  }

  lemma {:induction false} DigitsOfFormatNat(n: nat)
    ensures DigitsValue(FormatNat(n)) == n
    decreases n
  {
    var s := FormatNat(n);
    if n >= 10 {
      DigitsOfFormatNat(n / 10);
      assert s[..|s| - 1] == FormatNat(n / 10);
    }
  }

  lemma {:induction false} TrimLeftSkipsSpaces(pad: string, x: string)
    requires AllSpace(pad)
    requires |x| > 0 && !IsSpace(x[0])
    ensures TrimLeft(pad + x) == x
    decreases |pad|
  {
    var s := pad + x;
    if |pad| > 0 {
      assert s[0] == pad[0];
      assert s[1..] == pad[1..] + x;
      TrimLeftSkipsSpaces(pad[1..], x);
    } else {
      assert s == x;
    }
  }

  lemma {:induction false} TrimRightSkipsSpaces(x: string, pad: string)
    requires AllSpace(pad)
    requires |x| > 0 && !IsSpace(x[|x| - 1])
    ensures TrimRight(x + pad) == x
    decreases |pad|
  {
    var s := x + pad;
    if |pad| > 0 {
      var front := pad[..|pad| - 1];
      assert s[|s| - 1] == pad[|pad| - 1];
      assert s[..|s| - 1] == x + front;
      TrimRightSkipsSpaces(x, front);
    } else {
      assert s == x;
    }
  }

  /** White-space padding on either side is exactly what `strip` removes. */
  lemma StripPadding(x: string, left: string, right: string)
    requires AllSpace(left) && AllSpace(right)
    requires |x| > 0 && !IsSpace(x[0]) && !IsSpace(x[|x| - 1])
    ensures Strip(left + x + right) == x
  {
    var y := x + right;
    assert left + x + right == left + y;
    assert y[0] == x[0];
    TrimLeftSkipsSpaces(left, y);
    TrimRightSkipsSpaces(x, right);
  }

  lemma ParseFormattedNat(m: nat)
    ensures ParseUnsigned(FormatNat(m)) == Some(m as real)
  {
    var digits := FormatNat(m);
    DigitsOfFormatNat(m);
    assert digits[..|digits|] == digits;
  }

  lemma ParseSignedFormatInt(n: int)
    ensures ParseSigned(FormatInt(n)) == Some(n as real)
  {
    var x := FormatInt(n);
    if n < 0 {
      ParseFormattedNat(-n);
      assert x[1..] == FormatNat(-n);
    } else {
      ParseFormattedNat(n);
      assert IsDigit(x[0]);
    }
  }

  lemma StripPaddedInt(n: int, left: nat, right: nat)
    ensures Strip(Spaces(left) + FormatInt(n) + Spaces(right)) == FormatInt(n)
  {
    var x, l, r := FormatInt(n), Spaces(left), Spaces(right);
    assert |x| > 0 && !IsSpace(x[0]) && !IsSpace(x[|x| - 1]);
    assert AllSpace(l) && AllSpace(r);
    StripPadding(x, l, r);
  }

  /** `float()` parses what is left after stripping. */
  lemma FloatOfStripped(s: string, x: string)
    requires Strip(s) == x
    ensures ParseFloat(s) == ParseSigned(x)
  {
  }

  /** `float` reads back every integer written by `str`, whatever blank
      padding surrounds it, as in a right-justified fixed-width field. */
  lemma ParseFormattedInt(n: int, left: nat, right: nat)
    ensures ParseFloat(Spaces(left) + FormatInt(n) + Spaces(right)) == Some(n as real)
  {
    StripPaddedInt(n, left, right);
    ParseSignedFormatInt(n);
    FloatOfStripped(Spaces(left) + FormatInt(n) + Spaces(right), FormatInt(n));
  }

  /** Decimal text: the digits `w`, then a point and the digits `f` if
      `point` holds. */
  function Literal(w: string, point: bool, f: string): string {
    w + (if point then "." else "") + f
  }

  /** Every unsigned literal denotes its whole part plus its fraction. */
  lemma UnsignedLiteralValue(w: string, point: bool, f: string)
    requires AllDigits(w) && AllDigits(f)
    requires if point then |w| + |f| > 0 else |w| > 0 && f == ""
    ensures ParseUnsigned(Literal(w, point, f)) == Some(DecimalValue(w, f))
  {
    var t := Literal(w, point, f);
    if point {
      var k := |w|;
      assert t[k] == '.' && t[..k] == w && t[k + 1..] == f;
    } else {
      assert t == w;
      assert forall j :: 0 <= j < |w| ==> w[j] != '.';
      assert WholePart(t) == w[..|w|] == w;
      assert DigitsValue(f) == 0;
    }
  }

  /** A sign in front of an unsigned literal negates it or leaves it be. */
  lemma SignedLiteralValue(sign: string, u: string)
    requires sign == "" || sign == "+" || sign == "-"
    requires IsUnsignedLiteral(u)
    ensures ParseSigned(sign + u).Some?
    ensures ParseSigned(sign + u).value == if sign == "-" then -ParseUnsigned(u).value else ParseUnsigned(u).value
  {
    if sign == "" {
      assert sign + u == u;
      UnsignedLiteralEnds(u);
    } else {
      assert sign == [sign[0]];
      SignCharValue(sign[0], u);
    }
  }

  lemma SignCharValue(c: char, u: string)
    requires c == '+' || c == '-'
    requires IsUnsignedLiteral(u)
    ensures ParseSigned([c] + u) == Some(if c == '-' then -ParseUnsigned(u).value else ParseUnsigned(u).value)
  {
    var t := [c] + u;
    assert t[0] == c;
    assert t[1..] == u;
  }

  /** `float()` reads decimal text with any white space around it (blanks,
      a trailing newline, ...), with or without a sign and a point, as the
      number it denotes: a latitude like ` -33.9500` is -33.95. */
  lemma DecimalTextValue(left: string, sign: string, w: string, point: bool, f: string, right: string)
    requires AllSpace(left) && AllSpace(right)
    requires sign == "" || sign == "+" || sign == "-"
    requires AllDigits(w) && AllDigits(f)
    requires if point then |w| + |f| > 0 else |w| > 0 && f == ""
    ensures ParseFloat(left + sign + Literal(w, point, f) + right)
            == Some(if sign == "-" then -DecimalValue(w, f) else DecimalValue(w, f))
  {
    UnsignedLiteralValue(w, point, f);
    PaddedSignedFloat(left, sign, Literal(w, point, f), right);
    SignedDecimalValue(sign, w, point, f);
  }

  lemma SignedDecimalValue(sign: string, w: string, point: bool, f: string)
    requires sign == "" || sign == "+" || sign == "-"
    requires AllDigits(w) && AllDigits(f)
    requires if point then |w| + |f| > 0 else |w| > 0 && f == ""
    ensures ParseSigned(sign + Literal(w, point, f)) == Some(if sign == "-" then -DecimalValue(w, f) else DecimalValue(w, f))
  {
    UnsignedLiteralValue(w, point, f);
    SignedLiteralValue(sign, Literal(w, point, f));
  }

  /** An unsigned literal starts and ends with a digit or the point. */
  lemma UnsignedLiteralEnds(u: string)
    requires IsUnsignedLiteral(u)
    ensures HasDigit(u)
    ensures |u| > 0
    ensures IsDigit(u[0]) || u[0] == '.'
    ensures IsDigit(u[|u| - 1]) || u[|u| - 1] == '.'
  {
    var k := PointIndex(u);
    if k < |u| - 1 {
      assert u[k + 1..][|u| - k - 2] == u[|u| - 1];
    }
    if k > 0 {
      assert u[..k][0] == u[0];
      assert IsDigit(u[0]);
    } else {
      assert IsDigit(u[k + 1..][0]) && u[k + 1..][0] == u[k + 1];
    }
    if k == |u| {
      assert u[..k][k - 1] == u[|u| - 1];
    }
  }

  /** A signed literal starts and ends with a character that is not white
      space. */
  lemma SignedTextEnds(sign: string, u: string)
    requires sign == "" || sign == "+" || sign == "-"
    requires IsUnsignedLiteral(u)
    ensures |sign + u| > 0 && !IsSpace((sign + u)[0]) && !IsSpace((sign + u)[|sign + u| - 1])
  {
    var x := sign + u;
    UnsignedLiteralEnds(u);
    assert x[|x| - 1] == u[|u| - 1];
    if sign == "" {
      assert x[0] == u[0];
    } else {
      assert x[0] == sign[0];
    }
  }

  /** `float()` of a padded signed literal is that literal's value. */
  lemma PaddedSignedFloat(left: string, sign: string, u: string, right: string)
    requires AllSpace(left) && AllSpace(right)
    requires sign == "" || sign == "+" || sign == "-"
    requires IsUnsignedLiteral(u)
    ensures ParseFloat(left + sign + u + right) == ParseSigned(sign + u)
  {
    SignedTextEnds(sign, u);
    assert left + sign + u + right == left + (sign + u) + right;
    StripPadding(sign + u, left, right);
  }

  /** Text holding no digit at all, blank text in particular, is a
      `ValueError`. */
  lemma NoDigitIsNoNumber(s: string)
    requires forall k :: 0 <= k < |s| ==> !IsDigit(s[k])
    ensures ParseFloat(s) == None
  {
  }
}

=== FILE: wrappers.dfy ===
/** The optional-value datatype used throughout the model, in place of the
    NaN sentinels and uninitialised buffers of the Python scripts. */
module Wrappers {

  /** `None` is "no value": a missing day value, an unparseable number, or
      "no previous assignment yet". */
  datatype Option<+T> = None | Some(value: T)
}
